=== FILE: README.md ===
# Steam top-games scraper, modelled in Dafny

The system asks SteamSpy for the games most played in the last two weeks.
It keeps the first `rows` appids. It fetches one Steam store page per appid,
and turns each page into an immutable `Game` record:

- name, release date, price and metascore come from the page;
- the store url is built from the appid.

This project models that core:

- the scraper's parameter clamping (`SteamScraper.__init__`);
- the top-id step (`_fetch_top_ids`);
- the all-or-nothing, order-preserving batch (`fetch_games` / `_fetch_details` with `asyncio.gather`);
- page parsing (`_parse_game`);
- the four extractors: name, release date, metascore and price;
- the `Game` record: constructor defaults, read-only properties, `to_dict`, `__str__` and `__repr__`.

Modules, one per concern:

| module | file | models |
|---|---|---|
| `Wrappers` | wrappers.dfy | `Option` and `Result`, standing for Python's `None` and raised exceptions |
| `Text` | text.dfy | `str.strip`, `str.isdigit`, `int(s)`, `str(i)`, `str.replace` on one character, and locating a character (the decimal point `float` reads) |
| `Html` | html.dfy | the parsed page as its elements in document order; BeautifulSoup's `find` / `select_one` as "first element matching a predicate" |
| `Prices` | prices.dfy | the two price encodings: meta `itemprop="price"` content and `data-price-final` cents |
| `Games` | games.dfy | `backend/models/game.py` |
| `Scraper` | scraper.dfy | `backend/services/scraper.py` |

Network replies are parameters.

- The feed reply is a `FeedReply`: a transport error, or a status and the JSON object's keys in order.
- Each store page reply comes from a function `fetch: int -> PageReply`.
- `raise_for_status` is httpx's rule: any status outside 200–299 fails.

A zero meta price is meant to read "Free To Play". The code decides this by
comparing the normalised *text* with `"0"` and `"0.00"`, not by the amount's
value, and the model follows the code. So `"0,00"` is free, but `"0.0"` is
shown as `"0.00 EUR"` (`Prices.MetaZeroWithComma`,
`Prices.MetaZeroOtherSpelling`).

## Model

| member | source | states |
|---|---|---|
| Scraper.Clamp | backend/services/scraper.py:14 | `max(lo, min(v, hi))` lies in `[lo, hi]`; it is `v` when `v` is in range, otherwise the nearer bound |
| Scraper.NewScraper | backend/services/scraper.py:13-17 | rows is clamped to 1..100 and concurrency to 1..50: values in range are kept, values below become 1, and values above become 100 and 50. The semaphore gets `concurrency` permits when parallel, 1 otherwise. Defaults are `parallel=True, concurrency=20` |
| Scraper.NewScraperIdempotent | backend/services/scraper.py:14-16 | building a scraper from an existing scraper's settings gives the same scraper: clamping is idempotent |
| Scraper.SliceTo | backend/services/scraper.py:46 | Python's `xs[:n]` is a prefix of `xs` of length `min(n, len(xs))` for `n >= 0`; a negative `n` drops `-n` elements from the end, leaving nothing when `-n` is at least `len(xs)` |
| Scraper.Traverse | backend/services/scraper.py:46 | a conversion applied to every element succeeds exactly when every element converts, and then yields the converted elements in order |
| Scraper.FetchTopIds | backend/services/scraper.py:43-46 | a transport error or non-2xx status fails as unavailable; a body that is not an object fails as malformed. Otherwise the result succeeds exactly when every one of the first `rows` keys is an integer, and then it is those keys' values, in order |
| Scraper.FetchTopIdsOfPrintedIds | backend/services/scraper.py:46 | a feed whose keys are printed appids gives back exactly the first `rows` appids (`int(str(i)) == i` for every key) |
| Scraper.FirstText | backend/services/scraper.py:75-82 | no text exactly when no element matches; otherwise the stripped text of the first match |
| Scraper.ExtractName | backend/services/scraper.py:74-77 | `None` exactly when there is no `div.apphub_AppName`; otherwise the first one's stripped text |
| Scraper.ExtractReleaseDate | backend/services/scraper.py:79-82 | `None` exactly when there is no `div.date`; otherwise the first one's stripped text, kept as text |
| Scraper.ExtractMetascore | backend/services/scraper.py:84-90 | no `div.score` gives `None`. Otherwise the first one's stripped text gives a score exactly when it is a non-empty run of digits, and then the score is `int` of that text and is non-negative |
| Scraper.MetascoreTbd | tests/test_parse_html.py:49 | when the first `div.score`, wherever it stands in the page, reads "tbd" once stripped, there is no metascore rather than an error |
| Scraper.Currency | backend/services/scraper.py:99-101 | the first `meta[itemprop="priceCurrency"]`'s `content` when present. "EUR" when the tag or its `content` is missing |
| Scraper.ExtractPrice | backend/services/scraper.py:93-115 | a first `meta[itemprop="price"]` with non-empty content decides the price on the meta path. Otherwise the first `[data-price-final]` decides it on the cents path. Otherwise there is no price |
| Scraper.CentsPrice | backend/services/scraper.py:110-113 | the first `[data-price-final]` element's attribute, read as cents; no price when there is no such element |
| Scraper.MetaPriceTakesPrecedence | backend/services/scraper.py:96-113 | when the meta price applies, putting elements in front that carry any number of `data-price-final` attributes (but no price or currency meta) leaves the price unchanged, and there is a price |
| Scraper.PriceAbsent | backend/services/scraper.py:96-115 | the price is `None` exactly when the meta price does not apply and the first `data-price-final` (if any) is not all digits |
| Scraper.PriceAbsentCents | backend/services/scraper.py:110-115 | without a meta price, no price exactly when the first cents attribute is not all digits |
| Scraper.ZeroPriceIsFree | backend/services/scraper.py:102-113 | a meta price spelled "0" or "0.00", or without a meta price a cents count of zero, reads "Free To Play" |
| Scraper.StoreUrl | backend/services/scraper.py:71 | the url is `https://store.steampowered.com/app/` followed by exactly `str(appid)`, which reads back as the appid, so it names that appid and no other |
| Scraper.ParseGame | backend/services/scraper.py:57-72 | the game has the requested appid and each extractor's value in its field. Its url is the store prefix followed by the appid |
| Scraper.FetchDetail | backend/services/scraper.py:49-53 | a page succeeds exactly when the reply arrived with a 2xx status; it is then the parsed game of that appid. A failure names that appid |
| Scraper.Gather | backend/services/scraper.py:38-40 | succeeds exactly when every task succeeds, with the results in task order; a failure is the failure of one of the tasks |
| Scraper.FetchGames | backend/services/scraper.py:29-53 | a top-id failure is the batch's failure. Otherwise the batch succeeds exactly when every page is fetched, and then holds one parsed game per id, in rank order. Otherwise it fails naming an id whose page failed; no partial list exists |
| Prices.FractionHundredths | backend/services/scraper.py:105 | at most two fraction digits are worth less than one unit: one digit `d` is `10·d` hundredths ("5" is 50), two digits are their own value ("05" is 5), and no digits are worth nothing ("7." is whole units) |
| Prices.FormatHundredths | backend/services/scraper.py:113 | the rendering is spelled the way `:.2f` spells a non-negative amount: the units without leading zeros, a point and exactly two digits |
| Prices.ShowDecimal | backend/services/scraper.py:105 | a signed amount is that spelling, preceded by a minus sign exactly when the amount is negative (negative zero included) |
| Prices.SignedTwoDecimalIsShown | backend/services/scraper.py:105 | the `:.2f` spelling is unique: any string spelled that way reads as a decimal and is exactly the rendering of its own value |
| Prices.FormatHundredthsRoundTrip | backend/services/scraper.py:113 | `f"{cents/100:.2f}"` read back as a decimal is exactly `cents` hundredths |
| Prices.ShowDecimalRoundTrip | backend/services/scraper.py:105 | a signed amount shown to two decimals reads back as the same amount |
| Prices.FormatFloat2 | backend/services/scraper.py:104-107 | `f"{float(v):.2f}"` is defined exactly when `v` is a decimal; its rendering is a `:.2f` spelling and denotes the same signed amount |
| Prices.ZeroSpellingsAreDecimals | backend/services/scraper.py:102 | both zero spellings, "0" and "0.00", are decimals worth zero |
| Prices.CentsPriceText | backend/services/scraper.py:111-113 | a text is shown exactly when the attribute is all digits. It is "Free To Play" exactly when the count is zero. Any other count is shown as the `:.2f` spelling of exactly that many hundredths, followed by " EUR" |
| Prices.CentsAmount | backend/services/scraper.py:113 | `f"{cents/100:.2f} EUR"` is never "Free To Play". It is the `:.2f` spelling of exactly `cents` hundredths followed by " EUR" |
| Prices.ParseMagnitudeOfParts | backend/services/scraper.py:105 | digits, a point and at most two digits read as the whole part in hundredths plus the fraction |
| Prices.SplitAmount | backend/services/scraper.py:105-107 | `f"{amount} {currency}"` splits back into the amount and the currency |
| Prices.MetaPriceText | backend/services/scraper.py:98-107 | after stripping and turning commas into points: exactly "0" or "0.00" is free; another plain decimal with at most two fraction digits is shown as its two-decimal rendering, a space and the currency; any other text is shown as it is, a space and the currency |
| Prices.MetaPriceNumeric | backend/services/scraper.py:98-105 | a numeric meta value other than the zero spellings is shown in the `:.2f` spelling of the same amount, followed by the currency |
| Prices.ShowCanonicalAmount | backend/services/scraper.py:102-105 | a meta value already written to two decimals (as "24.50") is shown unchanged with the currency, except that "0.00" is free. A negative zero is not free |
| Prices.MetaZeroWithComma | backend/services/scraper.py:98-103 | "0,00" normalises to "0.00" and is free |
| Prices.MetaZeroOtherSpelling | backend/services/scraper.py:102-105 | the zero test compares spellings: meta content "0.0" is shown as "0.00 EUR", not as free |
| Games.NewGame | backend/models/game.py:4-18 | every field of the new game is the argument given for it; the properties read them back unchanged |
| Games.NewGameDefaults | backend/models/game.py:7-11 | a game built from an appid alone has every other property `None` |
| Games.SlotOfSlotName | backend/models/game.py:2 | the six slot names are distinct: each name maps back to its slot |
| Games.ToDict | backend/models/game.py:20-21 | the dictionary has exactly the six slots as keys, and each value is the corresponding field |
| Games.FromDictOfToDict | backend/models/game.py:20-21 | `to_dict` loses nothing: the game can be rebuilt from its dictionary |
| Games.ToDictOfFromDict | backend/models/game.py:20-21 | every well-typed six-slot dictionary is the `to_dict` of exactly the game read from it |
| Games.IntToStringChars | backend/models/game.py:24-27 | a printed integer consists of digits and possibly a minus sign, never a parenthesis |
| Games.Str | backend/models/game.py:26-27 | `str(game)` is the name ("None" when there is none), then " (", `str(appid)` and ")". The number in the final parentheses reads back as the appid whatever the name holds |
| Games.TrailingParenIntOf | backend/models/game.py:27 | any text followed by an integer printed in parentheses gives that integer back from its last parenthesis |
| Games.Repr | backend/models/game.py:23-24 | `repr(game)` is `Game(appid=`, then `str(appid)`, then the five labelled fields `name`, `release_date`, `price`, `metascore` and `url` and a closing parenthesis. The appid reads back from the text up to the first comma |
| Games.LeadingAppidOf | backend/models/game.py:24 | a text of the form `Game(appid=<d>, ...` yields `int(d)` as its leading appid |
| Text.TrimStart | backend/services/scraper.py:77 | drops exactly the leading whitespace: the result is a suffix that starts with a non-space or is empty |
| Text.TrimEnd | backend/services/scraper.py:77 | drops exactly the trailing whitespace |
| Text.Strip | backend/services/scraper.py:77 | `str.strip()` is the middle of the text between whitespace-only ends, with no whitespace left at either end |
| Text.StripUnique | backend/services/scraper.py:77 | there is only one such middle: any two strip results of a text agree |
| Text.StripIdempotent | backend/services/scraper.py:77 | stripping twice is stripping once |
| Text.ReplaceChar | backend/services/scraper.py:98 | `str.replace` of one character keeps the length and replaces exactly the occurrences |
| Text.ReplaceCharAbsent | backend/services/scraper.py:98 | replacing a character that does not occur changes nothing |
| Text.ParseInt | backend/services/scraper.py:46 | `int(s)`: once the whitespace `int()` skips (`\t` to `\r` and the space, not the separators 0x1C-0x1F) is removed, a digit run reads as its value, and a sign followed by a digit run reads as that value, negated for a minus. Any text that reads at all is one of these two shapes, so a bare sign fails. Only a minus gives a negative value |
| Text.IntToString | backend/models/game.py:27 | `str(i)` starts with a minus sign exactly when `i` is negative, and the rest is a canonical digit run worth the absolute value of `i` |
| Text.NatToString | backend/models/game.py:27 | `str(n)` is a canonical digit run (no leading zero) whose value is `n` |
| Text.NatToStringOfDigits | backend/services/scraper.py:89 | `str(int(d))` for a canonical digit run `d` is `d` itself |
| Text.ParseIntOfIntToString | backend/services/scraper.py:46 | `int(str(i)) == i` for every integer |
| Text.ParseIntCanonical | backend/services/scraper.py:46 | a text that is a canonical digit run once `int()`'s whitespace is removed parses to that run's value, which prints back as the run |
| Text.ParseIntOfDigits | backend/services/scraper.py:89 | on an ASCII digit run, `int` is the digits' value, so `int(text)` succeeds wherever the model's ASCII-only `isdigit` holds |
| Text.ParseIntKeepsSeparators | backend/services/scraper.py:46 | a digit run behind the separator 0x1C is stripped to the digits by `str.strip()`, but `int()` does not skip the separator and raises |
| Text.IntTrimStart | backend/services/scraper.py:46 | `int()` skips exactly the leading `\t`-to-`\r` and space characters, leaving a suffix that starts with neither |
| Text.IntTrimEnd | backend/services/scraper.py:46 | `int()` skips exactly the trailing `\t`-to-`\r` and space characters, leaving a prefix that ends with neither |
| Text.IndexOf | backend/services/scraper.py:105 | the position of the first occurrence of a character, or none when it does not occur |
| Html.FirstIndex | backend/services/scraper.py:76 | the position of the first element that matches, or none when none does |
| Html.IsFirstUnique | backend/services/scraper.py:76 | there is at most one first match |
| Html.IsFirstAfterPrefix | backend/services/scraper.py:96 | elements that match nothing, put in front of a page, only shift the first match |
| Html.Find | backend/services/scraper.py:76 | `find` / `select_one` gives nothing exactly when no element matches; otherwise the first match |

## Left out

- HTTP itself is not modelled: the httpx client, its headers and age-check cookies, redirects, the 20-second timeout and the query parameter `l=english`. The replies are parameters, and a timeout is a transport error.
- `time.time()` is not modelled; it only feeds the birthtime cookie.
- The semaphore and asyncio scheduling are not modelled beyond the permit count. The result of `fetch_games` does not depend on them.
- Scraper.Gather: when several pages fail, the source raises whichever failure asyncio surfaces first. The contract only promises that the failure is one of the failing tasks'. The model reports the first in rank order.
- HTML parsing by BeautifulSoup is not modelled. A page is its elements in document order, each with its tag, classes, attributes and flattened `.text`.
- Text.Strip: whitespace is ASCII plus Python's `\x1c`–`\x1f`. Unicode whitespace is not modelled.
- Text.ParseInt: underscores between digits and non-ASCII digits, which Python's `int` also accepts, are not modelled. For text holding a non-ASCII character, CPython first turns every Unicode whitespace character, the separators 0x1C-0x1F included, into a space; the model always applies the ASCII rule, where the separators are not skipped.
- Text.IsDigits: Unicode digits that `str.isdigit` accepts ("²", "³", "①") are not modelled. The model treats them as non-digits and gives no metascore or no cents price. The source's `isdigit` guard lets them through, `int()` raises `ValueError` on them, and the whole batch fails through `gather`.
- Prices.FormatFloat2: the model covers only plain decimals with at most two fraction digits ("24.5", "-3", ".5"). Other strings are treated as the `ValueError` branch: exponents, "inf", "nan", longer fractions (which round), and underscores. The rendering is exact only for amounts below 2^46 units (about 7×10^13), where a double's rounding error stays under half a cent; above that Python can print a neighbouring cent (81747168465660.68 prints as .69), and the model prints the amount as written.
- Prices.CentsPriceText: computed exactly with integer division. This agrees with `f"{cents/100:.2f}"` for counts below 100·2^46 (about 7×10^15); the float rounding of larger counts, which can move the last cent, is not modelled. Nor is the `OverflowError` that `cents/100` raises once the quotient exceeds the largest double (an attribute of 311 or more digits): the model returns a price there.
- Games.Repr: the five labelled fields after the appid are stated as one text, `ReprFields`, and only the appid is read back. A name or url may itself contain text such as ", price=", so the fields cannot be recovered one by one.
- Games.ToDict: keys are the `Slot` values, and `SlotName` gives each key's text. The dictionary's insertion order is not modelled.
- The fixture pages behind the test expectations (Hades at "24.50 EUR", ELDEN RING, Oblivion and others) are not part of this model. Their prices follow from `Scraper.ExtractPrice` once the page's price markers are known.
- `backend/api.py`, `client/client.py`, `backend/utils/timer.py` and `generate_html_from_steam_apid.py` are outside this model. They call the core or time it.

=== FILE: games.dfy ===
/** The `Game` value object: an immutable record of one store entry, its
    fixed-key dictionary form, and its two display strings. */
module Games {
  import opened Wrappers
  import opened Text

  /** One store entry. Every field is fixed at construction and, the record
      being a value, can never change afterwards; the destructors are the
      read-only properties `appid`, `name`, `release_date`, `price`,
      `metascore` and `url`. */
  datatype Game = Game(
    appid: int,
    name: Option<string>,
    releaseDate: Option<string>,
    price: Option<string>,
    metascore: Option<int>,
    url: Option<string>)

  /** The constructor with Python's keyword defaults: every optional field
      left out is `None`. */
  function NewGame(
    appid: int,
    name: Option<string> := None,
    releaseDate: Option<string> := None,
    price: Option<string> := None,
    metascore: Option<int> := None,
    url: Option<string> := None): (g: Game)
    ensures g.appid == appid && g.name == name && g.releaseDate == releaseDate
    ensures g.price == price && g.metascore == metascore && g.url == url
  {
    Game(appid, name, releaseDate, price, metascore, url)
  }

  /** Constructing with only an appid leaves every other property `None`. */
  lemma NewGameDefaults(appid: int)
    ensures NewGame(appid).appid == appid
    ensures NewGame(appid).name.None? && NewGame(appid).releaseDate.None? && NewGame(appid).price.None?
    ensures NewGame(appid).metascore.None? && NewGame(appid).url.None?
  {
  }

  // ---------------------------------------------------------------------------
  // to_dict

  /** The Python values a dictionary entry can hold. */
  datatype PyValue = PyNone | PyInt(i: int) | PyStr(s: string)

  /** The six slots of `__slots__`, in declaration order. A dictionary key
      is the slot's name, `SlotName(slot)`. */
  datatype Slot = AppidSlot | NameSlot | ReleaseDateSlot | PriceSlot | MetascoreSlot | UrlSlot

  const Slots: set<Slot> := {AppidSlot, NameSlot, ReleaseDateSlot, PriceSlot, MetascoreSlot, UrlSlot}

  /** The attribute name Python stores the slot under. */
  function SlotName(slot: Slot): string {
    match slot
    case AppidSlot => "_appid"
    case NameSlot => "_name"
    case ReleaseDateSlot => "_release_date"
    case PriceSlot => "_price"
    case MetascoreSlot => "_metascore"
    case UrlSlot => "_url"
  }

  /** The slot a dictionary key names, if any. */
  function SlotOfName(name: string): Option<Slot> {
    if name == "_appid" then Some(AppidSlot)
    else if name == "_name" then Some(NameSlot)
    else if name == "_release_date" then Some(ReleaseDateSlot)
    else if name == "_price" then Some(PriceSlot)
    else if name == "_metascore" then Some(MetascoreSlot)
    else if name == "_url" then Some(UrlSlot)
    else None
  }

  /** A slot's name identifies the slot, so distinct slots have distinct keys. */
  lemma SlotOfSlotName(slot: Slot)
    ensures SlotOfName(SlotName(slot)) == Some(slot)
  {
  }

  function StrValue(o: Option<string>): PyValue {
    match o
    case None => PyNone
    case Some(s) => PyStr(s)
  }

  function IntValue(o: Option<int>): PyValue {
    match o
    case None => PyNone
    case Some(i) => PyInt(i)
  }

  /** The value `getattr(self, slot)` reads: the matching property. */
  function SlotValue(g: Game, slot: Slot): PyValue {
    match slot
    case AppidSlot => PyInt(g.appid)
    case NameSlot => StrValue(g.name)
    case ReleaseDateSlot => StrValue(g.releaseDate)
    case PriceSlot => StrValue(g.price)
    case MetascoreSlot => IntValue(g.metascore)
    case UrlSlot => StrValue(g.url)
  }

  /** `to_dict`: exactly six entries, one per slot, each holding that slot's property value. */
  function ToDict(g: Game): (d: map<Slot, PyValue>)
    ensures d.Keys == Slots && |d| == 6
    ensures d[AppidSlot] == PyInt(g.appid)
    ensures d[NameSlot] == StrValue(g.name)
    ensures d[ReleaseDateSlot] == StrValue(g.releaseDate)
    ensures d[PriceSlot] == StrValue(g.price)
    ensures d[MetascoreSlot] == IntValue(g.metascore)
    ensures d[UrlSlot] == StrValue(g.url)
  {
    map slot | slot in Slots :: SlotValue(g, slot)
  }

  function AsStr(v: PyValue): Option<Option<string>> {
    match v
    case PyNone => Some(None)
    case PyStr(s) => Some(Some(s))
    case PyInt(_) => None
  }

  function AsOptInt(v: PyValue): Option<Option<int>> {
    match v
    case PyNone => Some(None)
    case PyInt(i) => Some(Some(i))
    case PyStr(_) => None
  }

  /** Reads a `Game` back from a dictionary shaped like `to_dict`'s output:
      exactly the six slots, an int appid, and values of each slot's type. */
  function FromDict(d: map<Slot, PyValue>): Option<Game> {
    if && d.Keys == Slots
       && d[AppidSlot].PyInt?
       && AsStr(d[NameSlot]).Some?
       && AsStr(d[ReleaseDateSlot]).Some?
       && AsStr(d[PriceSlot]).Some?
       && AsOptInt(d[MetascoreSlot]).Some?
       && AsStr(d[UrlSlot]).Some?
    then
      Some(Game(
        d[AppidSlot].i,
        AsStr(d[NameSlot]).value,
        AsStr(d[ReleaseDateSlot]).value,
        AsStr(d[PriceSlot]).value,
        AsOptInt(d[MetascoreSlot]).value,
        AsStr(d[UrlSlot]).value))
    else None
  }

  /** `to_dict` loses nothing: the record can be rebuilt from it. */
  lemma FromDictOfToDict(g: Game)
    ensures FromDict(ToDict(g)) == Some(g)
  {
    var d := ToDict(g);
    assert AsStr(d[NameSlot]) == Some(g.name);
    assert AsStr(d[ReleaseDateSlot]) == Some(g.releaseDate);
    assert AsStr(d[PriceSlot]) == Some(g.price);
    assert AsOptInt(d[MetascoreSlot]) == Some(g.metascore);
    assert AsStr(d[UrlSlot]) == Some(g.url);
  }

  /** Every dictionary `FromDict` accepts is exactly `to_dict` of what it built. */
  lemma ToDictOfFromDict(d: map<Slot, PyValue>)
    requires FromDict(d).Some?
    ensures ToDict(FromDict(d).value) == d
  {
    var g := FromDict(d).value;
    var d' := ToDict(g);
    StrValueOfAsStr(d[NameSlot]);
    StrValueOfAsStr(d[ReleaseDateSlot]);
    StrValueOfAsStr(d[PriceSlot]);
    IntValueOfAsOptInt(d[MetascoreSlot]);
    StrValueOfAsStr(d[UrlSlot]);
    forall k | k in d
      ensures d'[k] == d[k]
    {
      match k
      case AppidSlot =>
      case NameSlot =>
      case ReleaseDateSlot =>
      case PriceSlot =>
      case MetascoreSlot =>
      case UrlSlot =>
    }
    assert d'.Keys == d.Keys;
  }

  lemma StrValueOfAsStr(v: PyValue)
    requires AsStr(v).Some?
    ensures StrValue(AsStr(v).value) == v
  {
  }

  lemma IntValueOfAsOptInt(v: PyValue)
    requires AsOptInt(v).Some?
    ensures IntValue(AsOptInt(v).value) == v
  {
  }

  // ---------------------------------------------------------------------------
  // __str__ and __repr__

  /** How an f-string renders an optional string: the text itself, or "None". */
  function ShowStr(o: Option<string>): string {
    match o
    case None => "None"
    case Some(s) => s
  }

  /** How an f-string renders an optional int. */
  function ShowInt(o: Option<int>): string {
    match o
    case None => "None"
    case Some(i) => IntToString(i)
  }

  /** `__str__`: the name (or "None"), then the appid in parentheses. Whatever
      the name contains, the number in the final parentheses is the appid. */
  function Str(g: Game): (r: string)
    ensures |r| >= |ShowStr(g.name)| && r[..|ShowStr(g.name)|] == ShowStr(g.name)
    ensures r[|ShowStr(g.name)|..] == " (" + IntToString(g.appid) + ")"
    ensures TrailingParenInt(r) == Some(g.appid)
  {
    var n := ShowStr(g.name);
    TrailingParenIntOf(n + " ", g.appid);
    SplitAfterName(n, IntToString(g.appid));
    (n + " ") + InParens(g.appid)
  }

  /** An integer as `str` prints it, in parentheses. */
  function InParens(i: int): string {
    "(" + IntToString(i) + ")"
  }

  /** `str`'s text splits after the name into the name and " (appid)". */
  lemma SplitAfterName(n: string, d: string)
    ensures var r := (n + " ") + ("(" + d + ")");
      |r| >= |n| && r[..|n|] == n && r[|n|..] == " (" + d + ")"
  {
    var r := (n + " ") + ("(" + d + ")");
    assert r[..|n|] == n;
    assert r[|n|..] == " (" + d + ")";
  }

  /** `__repr__`: every field, labelled, in slot order. Whatever the other
      fields contain, the appid is read back from the front. */
  function Repr(g: Game): (r: string)
    ensures |r| > |ReprPrefix| && r[..|ReprPrefix|] == ReprPrefix
    ensures r[|ReprPrefix|..] == IntToString(g.appid) + ReprFields(g)
    ensures LeadingAppid(r) == Some(g.appid)
  {
    IntToStringChars(g.appid);
    LeadingAppidOf(IntToString(g.appid), ReprFields(g));
    ParseIntOfIntToString(g.appid);
    SplitAfterPrefix(ReprPrefix, IntToString(g.appid), ReprFields(g));
    ReprPrefix + IntToString(g.appid) + ReprFields(g)
  }

  /** `p + d + f` splits after `p` into `p` and `d + f`. */
  lemma SplitAfterPrefix(p: string, d: string, f: string)
    ensures |p + d + f| >= |p| && (p + d + f)[..|p|] == p && (p + d + f)[|p|..] == d + f
  {
    assert (p + d + f)[..|p|] == p;
    assert (p + d + f)[|p|..] == d + f;
  }

  /** How `__repr__` starts. */
  const ReprPrefix := "Game(appid="

  /** The part of `__repr__` after the appid. */
  function ReprFields(g: Game): string {
    ", name=" + ShowStr(g.name)
    + ", release_date=" + ShowStr(g.releaseDate)
    + ", price=" + ShowStr(g.price)
    + ", metascore=" + ShowInt(g.metascore)
    + ", url=" + ShowStr(g.url) + ")"
  }

  // Reading an appid back out of the display strings.

  /** The integer inside the trailing "(...)" of a string, if there is one. */
  function TrailingParenInt(s: string): Option<int> {
    match TrailingParenText(s)
    case None => None
    case Some(t) => ParseInt(t)
  }

  /** The text between the last '(' and a final ')', if there are both. */
  function TrailingParenText(s: string): Option<string> {
    if |s| == 0 || s[|s| - 1] != ')' then None
    else match LastIndexOf(s, '(')
      case None => None
      case Some(open) => Some(s[open + 1..|s| - 1])
  }

  /** The integer between "Game(appid=" and the first comma, if there is one. */
  function LeadingAppid(s: string): Option<int> {
    if |s| < |ReprPrefix| || s[..|ReprPrefix|] != ReprPrefix then None
    else
      var rest := s[|ReprPrefix|..];
      var comma :- IndexOf(rest, ',');
      ParseInt(rest[..comma])
  }

  lemma IntToStringChars(i: int)
    ensures forall j :: 0 <= j < |IntToString(i)| ==> IntToString(i)[j] == '-' || IsDigit(IntToString(i)[j])
  {
    if i < 0 {
      var d := NatToString(-i);
      forall j | 0 <= j < |IntToString(i)|
        ensures IntToString(i)[j] == '-' || IsDigit(IntToString(i)[j])
      {
        if j > 0 { assert IntToString(i)[j] == d[j - 1]; }
      }
    }
  }

  /** The number in the final parentheses of `a(<i>)` is `i`, whatever `a` holds. */
  lemma TrailingParenIntOf(a: string, i: int)
    ensures TrailingParenInt(a + InParens(i)) == Some(i)
  {
    var d := IntToString(i);
    IntToStringChars(i);
    TrailingParenTextOf(a, d);
    ParseIntOfIntToString(i);
  }

  /** Text without a '(' put in parentheses at the end reads back. */
  lemma TrailingParenTextOf(a: string, d: string)
    requires forall j :: 0 <= j < |d| ==> d[j] == '-' || IsDigit(d[j])
    ensures TrailingParenText(a + ("(" + d + ")")) == Some(d)
  {
    var s := a + ("(" + d + ")");
    assert LastIndexOf(s, '(') == Some(|a|) by {
      assert forall j :: 0 <= j < |d + ")"| ==> (d + ")")[j] != '(' by {
        assert forall j :: 0 <= j < |d| ==> (d + ")")[j] == d[j];
      }
      assert s == a + ['('] + (d + ")");
      LastIndexOfBefore(a, d + ")", '(');
    }
    TrailingParenAt(s, |a|);
    assert s[|a| + 1..|s| - 1] == d;
  }

  /** A string ending in ')' whose last '(' is at `k` reads as the text between. */
  lemma TrailingParenAt(s: string, k: nat)
    requires |s| > 0 && s[|s| - 1] == ')' && LastIndexOf(s, '(') == Some(k)
    ensures k < |s| - 1 && TrailingParenText(s) == Some(s[k + 1..|s| - 1])
  {
  }

  /** The leading appid is read up to the first comma after the prefix. */
  lemma LeadingAppidOf(d: string, tail: string)
    requires forall j :: 0 <= j < |d| ==> d[j] != ','
    requires |tail| > 0 && tail[0] == ','
    ensures LeadingAppid(ReprPrefix + d + tail) == ParseInt(d)
  {
    var prefix := ReprPrefix;
    var s := prefix + d + tail;
    assert s[..|prefix|] == prefix;
    assert s[|prefix|..] == d + tail;
    IndexOfAfter(d, tail, ',');
    assert (d + tail)[..|d|] == d;
  }
}

=== FILE: html.dfy ===
/** The parsed page, abstractly: the elements of the document in document
    order, each with its tag, its class set, its attributes and its flattened
    text. Searching for "the first element that matches a selector" is the
    only query the extractors make. */
module Html {
  import opened Wrappers

  datatype Element = Element(tag: string, classes: set<string>, attrs: map<string, string>, text: string)

  /** Every element of the page, in document order. */
  type Document = seq<Element>

  /** `doc[i]` is the first element of `doc` that satisfies `p`. */
  ghost predicate IsFirst(doc: Document, p: Element -> bool, i: int) {
    0 <= i < |doc| && p(doc[i]) && forall j :: 0 <= j < i ==> !p(doc[j])
  }

  /** Position of the first element satisfying `p` (BeautifulSoup's `find` /
      `select_one`), or `None` when no element does. */
  function FirstIndex(doc: Document, p: Element -> bool): (r: Option<nat>)
    ensures r.Some? ==> IsFirst(doc, p, r.value)
    ensures r.None? ==> forall j :: 0 <= j < |doc| ==> !p(doc[j])
  {
    if |doc| == 0 then None
    else if p(doc[0]) then Some(0)
    else match FirstIndex(doc[1..], p)
      case None => None
      case Some(k) => Some(k + 1)
  }

  /** At most one element is the first match. */
  lemma IsFirstUnique(doc: Document, p: Element -> bool, i: int, j: int)
    requires IsFirst(doc, p, i) && IsFirst(doc, p, j)
    ensures i == j
  {
  }

  /** Elements placed in front of a page that match nothing leave the first
      match where it was, shifted by their number. */
  lemma IsFirstAfterPrefix(front: Document, doc: Document, p: Element -> bool, i: int)
    requires forall j :: 0 <= j < |front| ==> !p(front[j])
    requires IsFirst(doc, p, i)
    ensures IsFirst(front + doc, p, |front| + i)
  {
    var all := front + doc;
    assert all[|front| + i] == doc[i];
    forall j | 0 <= j < |front| + i
      ensures !p(all[j])
    {
      if j < |front| { assert all[j] == front[j]; } else { assert all[j] == doc[j - |front|]; }
    }
  }

  /** The first element of the page that satisfies `p`, or `None`. */
  function Find(doc: Document, p: Element -> bool): (r: Option<Element>)
    ensures r.None? <==> forall j :: 0 <= j < |doc| ==> !p(doc[j])
    ensures forall i :: IsFirst(doc, p, i) ==> r == Some(doc[i])
  {
    match FirstIndex(doc, p)
    case None => None
    case Some(i) => Some(doc[i])
  }

  // Selectors. html.parser lower-cases tag and attribute names, so the tags
  // and attribute names compared here are already lower case.

  /** `find("div", class_=cls)`: a `div` one of whose classes is `cls`. */
  predicate IsDivWithClass(e: Element, cls: string) {
    e.tag == "div" && cls in e.classes
  }

  /** `meta[itemprop="<value>"]`. */
  predicate IsMetaWithItemprop(e: Element, value: string) {
    e.tag == "meta" && "itemprop" in e.attrs && e.attrs["itemprop"] == value
  }

  /** `tag.get(name, default)`. */
  function AttrOr(e: Element, name: string, default: string): (r: string)
    ensures name in e.attrs ==> r == e.attrs[name]
    ensures name !in e.attrs ==> r == default
  {
    if name in e.attrs then e.attrs[name] else default
  }
}

=== FILE: prices.dfy ===
/** Turning a price marker's raw text into the display string: the meta
    `itemprop="price"` content (a decimal amount) and the `data-price-final`
    attribute (an integer count of cents). */
module Prices {
  import opened Wrappers
  import opened Text

  /** The sentinel shown for a zero price. */
  const FreeToPlay: string := "Free To Play"

  /** The currency used when the page names none, and always on the cents path. */
  const DefaultCurrency: string := "EUR"

  /** A decimal amount, exactly: its sign and its magnitude in hundredths. */
  datatype Decimal = Decimal(negative: bool, hundredths: nat)

  /** The value of at most two fraction digits, in hundredths: "5" is 50
      and "05" is 5. */
  function FractionHundredths(f: string): (h: nat)
    requires AllDigits(f) && |f| <= 2
    ensures h < 100
    ensures |f| == 0 ==> h == 0
    ensures |f| == 1 ==> h == DigitsValue(f) * 10
    ensures |f| == 2 ==> h == DigitsValue(f)
  {
    if |f| == 0 then 0
    else if |f| == 1 then
      assert f[..0] == [];
      DigitValue(f[0]) * 10
    else
      assert f[..1][..0] == [] && f[..1] == [f[0]];
      assert DigitsValue(f[..1]) == DigitValue(f[0]);
      DigitValue(f[0]) * 10 + DigitValue(f[1])
  }

  /** The magnitude, in hundredths, of an unsigned decimal: digits with at
      most two of them after an optional point, at least one digit in all
      ("7", "7.", ".5", "24.50"). */
  function ParseMagnitude(body: string): Option<nat> {
    match IndexOf(body, '.')
    case None =>
      if IsDigits(body) then Some(DigitsValue(body) * 100) else None
    case Some(k) =>
      var whole, fraction := body[..k], body[k + 1..];
      if AllDigits(whole) && AllDigits(fraction) && |fraction| <= 2 && |whole| + |fraction| > 0 then
        Some(DigitsValue(whole) * 100 + FractionHundredths(fraction))
      else None
  }

  /** The plain decimals: an optional sign before an unsigned decimal.
      `None` for anything else. */
  function ParseDecimal(s: string): Option<Decimal> {
    if |s| > 0 && (s[0] == '-' || s[0] == '+') then
      match ParseMagnitude(s[1..])
      case None => None
      case Some(h) => Some(Decimal(s[0] == '-', h))
    else
      match ParseMagnitude(s)
      case None => None
      case Some(h) => Some(Decimal(false, h))
  }

  /** How `:.2f` spells a non-negative amount: the units without leading
      zeros, a point, and exactly two digits. */
  predicate IsTwoDecimal(a: string) {
    && |a| >= 4 && a[|a| - 3] == '.'
    && IsCanonicalDigits(a[..|a| - 3])
    && IsDigit(a[|a| - 2]) && IsDigit(a[|a| - 1])
  }

  /** How `:.2f` spells any amount: a two-decimal spelling, possibly after a minus sign. */
  predicate IsSignedTwoDecimal(a: string) {
    IsTwoDecimal(a) || (|a| > 0 && a[0] == '-' && IsTwoDecimal(a[1..]))
  }

  /** `"<units>.<two digits>"` for an amount given in hundredths. */
  function FormatHundredths(h: nat): (r: string)
    ensures IsTwoDecimal(r) && IsDigit(r[0])
  {
    var units := NatToString(h / 100);
    var r := units + "." + [Digit(h % 100 / 10), Digit(h % 10)];
    assert r[..|r| - 3] == units;
    assert r[0] == units[0];
    r
  }

  /** An amount rendered to two decimals, with Python's leading minus sign
      (kept even for a negative zero, as `f"{-0.0:.2f}"` is "-0.00"). */
  function ShowDecimal(d: Decimal): (r: string)
    ensures IsSignedTwoDecimal(r)
    ensures r[0] == '-' <==> d.negative
  {
    var a := FormatHundredths(d.hundredths);
    if d.negative then
      assert ("-" + a)[1..] == a;
      "-" + a
    else a
  }

  /** The two-decimal spelling is the only one: a string spelled the way
      `:.2f` spells amounts is exactly the rendering of the amount it denotes. */
  lemma SignedTwoDecimalIsShown(a: string)
    requires IsSignedTwoDecimal(a)
    ensures ParseDecimal(a).Some? && ShowDecimal(ParseDecimal(a).value) == a
  {
    if IsTwoDecimal(a) {
      var h := TwoDecimalIsRendered(a);
      ShowDecimalRoundTrip(Decimal(false, h));
    } else {
      var h := TwoDecimalIsRendered(a[1..]);
      assert a == "-" + a[1..];
      ShowDecimalRoundTrip(Decimal(true, h));
    }
  }

  /** Every unsigned two-decimal spelling is the rendering of some amount. */
  lemma TwoDecimalIsRendered(a: string) returns (h: nat)
    requires IsTwoDecimal(a)
    ensures FormatHundredths(h) == a
  {
    var units, c0, c1 := a[..|a| - 3], a[|a| - 2], a[|a| - 1];
    assert a == units + "." + [c0, c1];
    NatToStringOfDigits(units);
    h := DigitsValue(units) * 100 + (DigitValue(c0) * 10 + DigitValue(c1));
    FormatOfDigits(h, DigitsValue(units), units, c0, c1);
  }

  /** Rendering `q` units and two fraction digits spells out `str(q)`, a
      point and the two digits. */
  lemma FormatOfDigits(h: nat, q: nat, units: string, c0: char, c1: char)
    requires NatToString(q) == units && IsDigit(c0) && IsDigit(c1)
    requires h == q * 100 + (DigitValue(c0) * 10 + DigitValue(c1))
    ensures FormatHundredths(h) == units + "." + [c0, c1]
  {
    var d0, d1 := DigitValue(c0), DigitValue(c1);
    HundredthsOfDigits(q, d0, d1);
    DigitOfValue(c0);
    DigitOfValue(c1);
  }

  lemma DigitOfValue(c: char)
    requires IsDigit(c)
    ensures Digit(DigitValue(c)) == c
  {
  }

  /** The units and the two digits come back out of the amount in hundredths. */
  lemma HundredthsOfDigits(q: nat, d0: nat, d1: nat)
    requires d0 < 10 && d1 < 10
    ensures var h := q * 100 + (d0 * 10 + d1); h / 100 == q && h % 100 / 10 == d0 && h % 10 == d1
  {
    var t := d0 * 10 + d1;
    var h := q * 100 + t;
    DivMod100(q, t);
    LastDigitSplit(d0, d1);
    assert h == (q * 10 + d0) * 10 + d1;
    LastDigitSplit(q * 10 + d0, d1);
  }

  /** Whole units and a fraction below one hundred come back out of the
      amount in hundredths. */
  lemma DivMod100(q: nat, t: nat)
    requires t < 100
    ensures (q * 100 + t) / 100 == q && (q * 100 + t) % 100 == t
  {
  }

  /** The two-decimal rendering of a non-negative amount reads back as that amount. */
  lemma FormatHundredthsRoundTrip(h: nat)
    ensures ParseMagnitude(FormatHundredths(h)) == Some(h)
  {
    var a, b := h % 100 / 10, h % 10;
    var units, frac := NatToString(h / 100), [Digit(a), Digit(b)];
    assert FormatHundredths(h) == units + "." + frac;
    ParseMagnitudeOfParts(units, frac);
    assert FractionHundredths(frac) == a * 10 + b;
    HundredthsSplit(h);
  }

  /** Units, tens of hundredths and hundredths add back up to the amount. */
  lemma HundredthsSplit(h: nat)
    ensures h / 100 * 100 + h % 100 / 10 * 10 + h % 10 == h
  {
    var q, r := h / 100, h % 100;
    var t, u := r / 10, r % 10;
    assert h == (10 * q + t) * 10 + u;
    LastDigitSplit(10 * q + t, u);
  }

  /** Digits, a point and at most two digits read as the whole part in
      hundredths plus the fraction. */
  lemma ParseMagnitudeOfParts(whole: string, fraction: string)
    requires IsDigits(whole) && AllDigits(fraction) && |fraction| <= 2
    ensures ParseMagnitude(whole + "." + fraction) == Some(DigitsValue(whole) * 100 + FractionHundredths(fraction))
  {
    var s := whole + "." + fraction;
    assert IndexOf(s, '.') == Some(|whole|) by {
      assert s == whole + ("." + fraction);
      IndexOfAfter(whole, "." + fraction, '.');
    }
    assert s[..|whole|] == whole;
    assert s[|whole| + 1..] == fraction;
    ParseMagnitudeAt(s, |whole|, whole, fraction);
  }

  /** A body whose first point has digits before it and at most two digits
      after it reads as those two parts. */
  lemma ParseMagnitudeAt(body: string, k: nat, whole: string, fraction: string)
    requires IndexOf(body, '.') == Some(k) && body[..k] == whole && body[k + 1..] == fraction
    requires IsDigits(whole) && AllDigits(fraction) && |fraction| <= 2
    ensures ParseMagnitude(body) == Some(DigitsValue(whole) * 100 + FractionHundredths(fraction))
  {
  }

  /** Rendering a decimal and reading it back gives the same decimal. */
  lemma ShowDecimalRoundTrip(d: Decimal)
    ensures ParseDecimal(ShowDecimal(d)) == Some(d)
  {
    var a := FormatHundredths(d.hundredths);
    FormatHundredthsRoundTrip(d.hundredths);
    if d.negative {
      assert ShowDecimal(d)[1..] == a;
    } else {
      assert ShowDecimal(d) == a;
    }
  }

  /** `f"{float(s):.2f}"` on the plain decimal strings `ParseDecimal` accepts;
      `None` stands for the `ValueError` branch. The rendering is in the
      `:.2f` spelling and denotes the same signed amount as `s`, which is what
      Python prints for amounts below 2^46 units. */
  function FormatFloat2(s: string): (r: Option<string>)
    ensures r.Some? <==> ParseDecimal(s).Some?
    ensures r.Some? ==> ParseDecimal(r.value) == ParseDecimal(s)
    ensures r.Some? ==> IsSignedTwoDecimal(r.value)
  {
    match ParseDecimal(s)
    case None => None
    case Some(d) =>
      ShowDecimalRoundTrip(d);
      Some(ShowDecimal(d))
  }

  /** Both zero spellings are decimals, so the numeric branch never sees them. */
  lemma ZeroSpellingsAreDecimals()
    ensures ParseDecimal("0") == Some(Decimal(false, 0))
    ensures ParseDecimal("0.00") == Some(Decimal(false, 0))
  {
    ParseZero();
    ParseZeroPointZeroZero();
  }

  lemma ParseZero()
    ensures ParseDecimal("0") == Some(Decimal(false, 0))
  {
    assert IndexOf("0", '.').None?;
    assert DigitsValue("0") == 0;
  }

  lemma ParseZeroPointZeroZero()
    ensures ParseDecimal("0.00") == Some(Decimal(false, 0))
  {
    var body := "0.00";
    assert IndexOf(body, '.') == Some(1);
    assert body[..1] == "0" && body[2..] == "00";
    assert DigitsValue("0") == 0;
    assert FractionHundredths("00") == 0;
  }

  /** The meta content as the code compares it: stripped, with every decimal
      comma turned into a point. */
  function Normalize(content: string): string {
    ReplaceChar(Strip(content), ',', '.')
  }

  /** The two spellings of zero the meta path recognises. */
  predicate IsZeroSpelling(v: string) {
    v == "0" || v == "0.00"
  }

  /** A cents attribute that counts zero cents ("0", "000", ...). */
  predicate IsZeroCents(attr: string) {
    IsDigits(attr) && DigitsValue(attr) == 0
  }

  /** The meta-tag path: strip the content and turn a decimal comma into a
      point; exactly "0" and "0.00" are then free, a plain decimal is shown
      to two decimals with the currency, and anything else is shown as it
      is with the currency (the `ValueError` branch). */
  function MetaPriceText(content: string, currency: string): (r: string)
    ensures IsZeroSpelling(Normalize(content)) ==> r == FreeToPlay
    ensures !IsZeroSpelling(Normalize(content)) && ParseDecimal(Normalize(content)).Some? ==>
      r == ShowDecimal(ParseDecimal(Normalize(content)).value) + " " + currency
    ensures ParseDecimal(Normalize(content)).None? ==> r == Normalize(content) + " " + currency
  {
    ShowMetaValue(Normalize(content), currency)
  }

  /** The meta path after normalisation. */
  function ShowMetaValue(v: string, currency: string): (r: string)
    ensures IsZeroSpelling(v) ==> r == FreeToPlay
    ensures !IsZeroSpelling(v) && ParseDecimal(v).Some? ==> r == ShowDecimal(ParseDecimal(v).value) + " " + currency
    ensures ParseDecimal(v).None? ==> r == v + " " + currency
  {
    if IsZeroSpelling(v) then FreeToPlay
    else match FormatFloat2(v)
      case Some(amount) => amount + " " + currency
      case None =>
        ZeroSpellingsAreDecimals();
        v + " " + currency
  }

  /** `text` is the two-decimal spelling of `cents` hundredths followed by " EUR". */
  predicate ShowsCents(text: string, cents: nat) {
    && |text| > 4
    && text[|text| - 4..] == " " + DefaultCurrency
    && IsTwoDecimal(text[..|text| - 4])
    && ParseDecimal(text[..|text| - 4]) == Some(Decimal(false, cents))
  }

  /** The `data-price-final` path: a digit string counts cents; zero is free,
      anything else is shown in euros with two decimals; non-digit text gives
      no price at all. The sentinel appears exactly for a zero count. */
  function CentsPriceText(attr: string): (r: Option<string>)
    ensures r.Some? <==> IsDigits(attr)
    ensures r == Some(FreeToPlay) <==> IsZeroCents(attr)
    ensures IsDigits(attr) && DigitsValue(attr) != 0 ==> ShowsCents(r.value, DigitsValue(attr))
  {
    if IsDigits(attr) then
      var cents := DigitsValue(attr);
      if cents == 0 then Some(FreeToPlay)
      else
        CentsAmount(cents);
        Some(FormatHundredths(cents) + " " + DefaultCurrency)
    else None
  }

  // ---------------------------------------------------------------------------
  // What the two paths promise

  /** A count of cents shown in euros is never the sentinel, and it is an
      amount worth exactly that many cents followed by " EUR". */
  lemma CentsAmount(cents: nat)
    ensures FormatHundredths(cents) + " " + DefaultCurrency != FreeToPlay
    ensures ShowsCents(FormatHundredths(cents) + " " + DefaultCurrency, cents)
  {
    var amount := FormatHundredths(cents);
    AmountIsNotFree(amount, DefaultCurrency);
    assert amount + " " + DefaultCurrency == amount + " EUR";
    SplitAmount(amount, DefaultCurrency);
    FormatHundredthsRoundTrip(cents);
  }

  /** A shown amount starts with a digit, so it is never the sentinel. */
  lemma AmountIsNotFree(amount: string, currency: string)
    requires |amount| > 0 && IsDigit(amount[0])
    ensures amount + " " + currency != FreeToPlay
  {
    assert (amount + " " + currency)[0] == amount[0];
  }

  /** An amount followed by a space and a currency splits back into the two. */
  lemma SplitAmount(amount: string, currency: string)
    ensures var text := amount + " " + currency;
      && text[..|text| - |currency| - 1] == amount
      && text[|text| - |currency| - 1..] == " " + currency
  {
    var text := amount + " " + currency;
    assert text[..|text| - |currency| - 1] == amount;
    assert text[|text| - |currency| - 1..] == " " + currency;
  }

  /** On the meta path, a numeric text other than the two zero spellings is
      shown as the same amount to two decimals, then the currency. */
  lemma MetaPriceNumeric(content: string, currency: string)
    requires ParseDecimal(Normalize(content)).Some?
    requires !IsZeroSpelling(Normalize(content))
    ensures var text := MetaPriceText(content, currency);
      && |text| >= |currency| + 5
      && text[|text| - |currency| - 1..] == " " + currency
      && IsSignedTwoDecimal(text[..|text| - |currency| - 1])
      && ParseDecimal(text[..|text| - |currency| - 1]) == ParseDecimal(Normalize(content))
  {
    var d := ParseDecimal(Normalize(content)).value;
    var amount := ShowDecimal(d);
    assert MetaPriceText(content, currency) == amount + " " + currency;
    assert |amount| >= 4;
    ShowDecimalRoundTrip(d);
    SplitAmount(amount, currency);
  }

  /** A meta value already written to two decimals is shown unchanged with
      the currency ("24.50" gives "24.50 EUR"), except that "0.00" is free;
      a negative zero "-0.00" is not a zero spelling and stays an amount. */
  lemma ShowCanonicalAmount(d: Decimal, currency: string)
    ensures ShowMetaValue(ShowDecimal(d), currency) ==
      if d == Decimal(false, 0) then FreeToPlay else ShowDecimal(d) + " " + currency
  {
    var v := ShowDecimal(d);
    ShowDecimalRoundTrip(d);
    if d == Decimal(false, 0) {
      assert v == "0.00";
    } else {
      ZeroSpellingsAreDecimals();
      assert !IsZeroSpelling(v);
      assert ShowDecimal(ParseDecimal(v).value) == v;
    }
  }

  /** The zero test on the meta path compares spellings, not values: a
      decimal comma counts, so "0,00" is free ... */
  lemma MetaZeroWithComma()
    ensures MetaPriceText("0,00", "EUR") == FreeToPlay
  {
    NormalizeZeroComma();
    assert IsZeroSpelling("0.00");
  }

  lemma NormalizeZeroComma()
    ensures Normalize("0,00") == "0.00"
  {
    StripOfTrimmed("0,00");
    CommaToPoint();
  }

  lemma CommaToPoint()
    ensures ReplaceChar("0,00", ',', '.') == "0.00"
  {
    var r := ReplaceChar("0,00", ',', '.');
    assert r[0] == '0' && r[1] == '.' && r[2] == '0' && r[3] == '0';
  }

  lemma NormalizeZeroPointZero()
    ensures Normalize("0.0") == "0.0"
  {
    StripPointZero();
    PointZeroHasNoComma();
  }

  lemma PointZeroHasNoComma()
    ensures ReplaceChar("0.0", ',', '.') == "0.0"
  {
    var r := ReplaceChar("0.0", ',', '.');
    assert r[0] == '0' && r[1] == '.' && r[2] == '0';
  }

  lemma StripPointZero()
    ensures Strip("0.0") == "0.0"
  {
    StripOfTrimmed("0.0");
  }

  lemma ParseZeroPointZero()
    ensures ParseDecimal("0.0") == Some(Decimal(false, 0))
  {
    var body := "0.0";
    assert IndexOf(body, '.') == Some(1);
    assert body[..1] == "0" && body[2..] == "0";
    assert DigitsValue("0") == 0;
    assert FractionHundredths("0") == 0;
  }

  lemma ShowZeroPointZero()
    ensures ShowMetaValue("0.0", "EUR") == "0.00 EUR"
  {
    ParseZeroPointZero();
    assert !IsZeroSpelling("0.0");
    assert ShowDecimal(Decimal(false, 0)) == "0.00";
  }

  /** ... but "0.0" is a number worth zero that is shown as an amount. */
  lemma MetaZeroOtherSpelling()
    ensures MetaPriceText("0.0", "EUR") == "0.00 EUR"
  {
    NormalizeZeroPointZero();
    ShowZeroPointZero();
  }
}

=== FILE: scraper.dfy ===
/** The scraping pipeline: clamp the request parameters, take the top-ranked
    appids from the feed, fetch one store page per appid, and extract a
    `Game` from each page. Network replies are parameters of the model. */
module Scraper {
  import opened Wrappers
  import opened Text
  import opened Html
  import opened Prices
  import opened Games

  // ---------------------------------------------------------------------------
  // Construction

  /** A configured scraper: how many rows to fetch, whether requests run in
      parallel, the concurrency cap, and the semaphore's permit count. */
  datatype SteamScraper = SteamScraper(rows: int, parallel: bool, concurrency: int, permits: int)

  /** Python's `max(lo, min(v, hi))`. */
  function Clamp(v: int, lo: int, hi: int): (r: int)
    requires lo <= hi
    ensures lo <= r <= hi
    ensures lo <= v <= hi ==> r == v
    ensures v < lo ==> r == lo
    ensures v > hi ==> r == hi
  {
    var m := if v < hi then v else hi;
    if lo > m then lo else m
  }

  /** `SteamScraper(rows, parallel=True, concurrency=20)`. */
  function NewScraper(rows: int, parallel: bool := true, concurrency: int := 20): (s: SteamScraper)
    ensures 1 <= s.rows <= 100 && 1 <= s.concurrency <= 50
    ensures 1 <= rows <= 100 ==> s.rows == rows
    ensures 1 <= concurrency <= 50 ==> s.concurrency == concurrency
    ensures s.rows == Clamp(rows, 1, 100) && s.concurrency == Clamp(concurrency, 1, 50)
    ensures s.parallel == parallel
    ensures s.permits == if parallel then s.concurrency else 1
  {
    var c := Clamp(concurrency, 1, 50);
    SteamScraper(Clamp(rows, 1, 100), parallel, c, if parallel then c else 1)
  }

  /** Clamping is idempotent: rebuilding a scraper from its own settings
      gives the same scraper. */
  lemma NewScraperIdempotent(rows: int, parallel: bool, concurrency: int)
    ensures var s := NewScraper(rows, parallel, concurrency);
      NewScraper(s.rows, s.parallel, s.concurrency) == s
  {
  }

  // ---------------------------------------------------------------------------
  // Replies from the network

  /** httpx's `is_success`: `raise_for_status` raises for every other status. */
  predicate IsSuccess(status: int) {
    200 <= status < 300
  }

  /** The reply to the top-list request: a transport failure, or a status and
      the keys of the JSON body in order (`None` when the body is not a JSON
      object). */
  datatype FeedReply = FeedTransportError | FeedResponse(status: int, keys: Option<seq<string>>)

  /** The reply to one store page request. */
  datatype PageReply = PageTransportError | PageResponse(status: int, page: Document)

  /** What aborts `fetch_games`. */
  datatype Error = UpstreamUnavailable | UpstreamMalformed | DetailFetchFailed(appid: int)

  // ---------------------------------------------------------------------------
  // Top ids

  /** Python's `xs[:n]`; a negative `n` counts from the end. */
  function SliceTo<T>(xs: seq<T>, n: int): (r: seq<T>)
    ensures n >= 0 ==> |r| == if n < |xs| then n else |xs|
    ensures n < 0 ==> |r| == if |xs| + n > 0 then |xs| + n else 0
    ensures |r| <= |xs| && r == xs[..|r|]
  {
    if n >= 0 then (if n < |xs| then xs[..n] else xs)
    else if |xs| + n > 0 then xs[..|xs| + n] else []
  }

  /** Applies `f` to every element, all or nothing: the results in order
      when every application succeeds, `None` as soon as one fails. */
  function Traverse<T, U>(xs: seq<T>, f: T -> Option<U>): (r: Option<seq<U>>)
    ensures r.Some? <==> forall i :: 0 <= i < |xs| ==> f(xs[i]).Some?
    ensures r.Some? ==> |r.value| == |xs| && forall i :: 0 <= i < |xs| ==> r.value[i] == f(xs[i]).value
  {
    if |xs| == 0 then Some([])
    else
      match f(xs[0])
      case None => None
      case Some(y) =>
        match Traverse(xs[1..], f)
        case None => None
        case Some(rest) => Some([y] + rest)
  }

  /** `_fetch_top_ids`: the first `rows` keys of the feed's object, in order,
      each converted with `int`. */
  function FetchTopIds(reply: FeedReply, rows: int): (r: Result<seq<int>, Error>)
    ensures (reply.FeedTransportError? || !IsSuccess(reply.status)) ==> r == Failure(UpstreamUnavailable)
    ensures reply.FeedResponse? && IsSuccess(reply.status) && reply.keys.None? ==> r == Failure(UpstreamMalformed)
    ensures reply.FeedResponse? && IsSuccess(reply.status) && reply.keys.Some? ==>
      var top := SliceTo(reply.keys.value, rows);
      && (r.Success? <==> forall i :: 0 <= i < |top| ==> ParseInt(top[i]).Some?)
      && (r.Failure? ==> r.error == UpstreamMalformed)
      && (r.Success? ==> |r.value| == |top| && forall i :: 0 <= i < |top| ==> r.value[i] == ParseInt(top[i]).value)
  {
    if reply.FeedTransportError? || !IsSuccess(reply.status) then Failure(UpstreamUnavailable)
    else if reply.keys.None? then Failure(UpstreamMalformed)
    else
      match Traverse(SliceTo(reply.keys.value, rows), ParseInt)
      case None => Failure(UpstreamMalformed)
      case Some(ids) => Success(ids)
  }

  /** A feed keyed by the printed appids gives back exactly the first `rows` appids. */
  lemma FetchTopIdsOfPrintedIds(ids: seq<int>, keys: seq<string>, status: int, rows: nat)
    requires IsSuccess(status)
    requires |keys| == |ids| && forall i :: 0 <= i < |ids| ==> keys[i] == IntToString(ids[i])
    ensures FetchTopIds(FeedResponse(status, Some(keys)), rows) == Success(SliceTo(ids, rows))
  {
    var top, want := SliceTo(keys, rows), SliceTo(ids, rows);
    assert |top| == |want|;
    forall i | 0 <= i < |top|
      ensures ParseInt(top[i]) == Some(want[i])
    {
      assert top[i] == keys[i] && want[i] == ids[i];
      ParseIntOfIntToString(ids[i]);
    }
    var got := FetchTopIds(FeedResponse(status, Some(keys)), rows);
    assert got.Success?;
    assert got.value == want;
  }

  // ---------------------------------------------------------------------------
  // Field extraction

  predicate IsNameDiv(e: Element) { IsDivWithClass(e, "apphub_AppName") }
  predicate IsDateDiv(e: Element) { IsDivWithClass(e, "date") }
  predicate IsScoreDiv(e: Element) { IsDivWithClass(e, "score") }
  predicate IsMetaPrice(e: Element) { IsMetaWithItemprop(e, "price") }
  predicate IsMetaCurrency(e: Element) { IsMetaWithItemprop(e, "priceCurrency") }
  predicate HasPriceFinal(e: Element) { "data-price-final" in e.attrs }

  /** The stripped text of the first element satisfying `p`. */
  function FirstText(doc: Document, p: Element -> bool): (r: Option<string>)
    ensures r.None? <==> forall j :: 0 <= j < |doc| ==> !p(doc[j])
    ensures forall i :: IsFirst(doc, p, i) ==> r == Some(Strip(doc[i].text))
  {
    match Find(doc, p)
    case None => None
    case Some(e) => Some(Strip(e.text))
  }

  /** `_extract_name`: the stripped text of the first `div.apphub_AppName`. */
  function ExtractName(doc: Document): (r: Option<string>)
    ensures r.None? <==> forall j :: 0 <= j < |doc| ==> !IsNameDiv(doc[j])
    ensures forall i :: IsFirst(doc, IsNameDiv, i) ==> r == Some(Strip(doc[i].text))
  {
    FirstText(doc, IsNameDiv)
  }

  /** `_extract_release_date`: the stripped text of the first `div.date`, kept verbatim. */
  function ExtractReleaseDate(doc: Document): (r: Option<string>)
    ensures r.None? <==> forall j :: 0 <= j < |doc| ==> !IsDateDiv(doc[j])
    ensures forall i :: IsFirst(doc, IsDateDiv, i) ==> r == Some(Strip(doc[i].text))
  {
    FirstText(doc, IsDateDiv)
  }

  /** `_extract_metascore`: `int(text)` when the first `div.score`'s stripped
      text is all digits; `None` when there is no such div or its text is
      empty or has any other character. */
  function ExtractMetascore(doc: Document): (r: Option<int>)
    ensures (forall j :: 0 <= j < |doc| ==> !IsScoreDiv(doc[j])) ==> r.None?
    ensures forall i :: IsFirst(doc, IsScoreDiv, i) ==>
      && (r.Some? <==> IsDigits(Strip(doc[i].text)))
      && (r.Some? ==> r == ParseInt(Strip(doc[i].text)) && r.value >= 0)
  {
    match FirstText(doc, IsScoreDiv)
    case None => None
    case Some(text) =>
      if IsDigits(text) then
        ParseIntOfDigits(text);
        Some(DigitsValue(text))
      else None
  }

  /** A score of "tbd" is no metascore, not an error. */
  lemma MetascoreTbd(doc: Document, i: int)
    requires IsFirst(doc, IsScoreDiv, i) && Strip(doc[i].text) == "tbd"
    ensures ExtractMetascore(doc).None?
  {
    assert !IsDigit("tbd"[0]);
  }

  /** `meta_price.get("content")` is truthy: present and non-empty. */
  predicate HasContent(e: Element) {
    "content" in e.attrs && e.attrs["content"] != ""
  }

  /** The meta price applies: the first `meta[itemprop="price"]` has content. */
  ghost predicate MetaPriceApplies(doc: Document) {
    exists i :: IsFirst(doc, IsMetaPrice, i) && HasContent(doc[i])
  }

  /** The currency next to the meta price: the first
      `meta[itemprop="priceCurrency"]`'s `content`, defaulting to "EUR" when
      there is no such tag or it has no `content`. */
  function Currency(doc: Document): (r: string)
    ensures (forall j :: 0 <= j < |doc| ==> !IsMetaCurrency(doc[j])) ==> r == DefaultCurrency
    ensures forall i :: IsFirst(doc, IsMetaCurrency, i) ==>
      r == if "content" in doc[i].attrs then doc[i].attrs["content"] else DefaultCurrency
  {
    match Find(doc, IsMetaCurrency)
    case None => DefaultCurrency
    case Some(e) => AttrOr(e, "content", DefaultCurrency)
  }

  /** The cents path on its own: the first `[data-price-final]` read as
      cents, or `None` when there is no such element. */
  function CentsPrice(doc: Document): (r: Option<string>)
    ensures forall i :: IsFirst(doc, HasPriceFinal, i) ==> r == CentsPriceText(doc[i].attrs["data-price-final"])
    ensures (forall j :: 0 <= j < |doc| ==> !HasPriceFinal(doc[j])) ==> r.None?
  {
    match Find(doc, HasPriceFinal)
    case None => None
    case Some(e) => CentsPriceText(e.attrs["data-price-final"])
  }

  /** `_extract_price`: the meta price when it applies; otherwise the first
      `[data-price-final]` read as cents; otherwise `None`. */
  function ExtractPrice(doc: Document): (r: Option<string>)
    ensures forall i :: IsFirst(doc, IsMetaPrice, i) && HasContent(doc[i]) ==>
      r == Some(MetaPriceText(doc[i].attrs["content"], Currency(doc)))
    ensures !MetaPriceApplies(doc) ==>
      forall i :: IsFirst(doc, HasPriceFinal, i) ==> r == CentsPriceText(doc[i].attrs["data-price-final"])
    ensures !MetaPriceApplies(doc) && (forall j :: 0 <= j < |doc| ==> !HasPriceFinal(doc[j])) ==> r.None?
  {
    match FirstIndex(doc, IsMetaPrice)
    case Some(m) =>
      if HasContent(doc[m]) then
        assert forall i :: IsFirst(doc, IsMetaPrice, i) ==> i == m;
        Some(MetaPriceText(doc[m].attrs["content"], Currency(doc)))
      else
        assert forall i :: IsFirst(doc, IsMetaPrice, i) ==> i == m;
        CentsPrice(doc)
    case None => CentsPrice(doc)
  }

  /** Every store page address starts with this. */
  const StorePrefix := "https://store.steampowered.com/app/"

  /** The Steam store page of an appid: the url names the appid and nothing
      else, so reading the text after the prefix gives the appid back. */
  function StoreUrl(appid: int): (r: string)
    ensures |r| > |StorePrefix| && r[..|StorePrefix|] == StorePrefix
    ensures r[|StorePrefix|..] == IntToString(appid)
    ensures ParseInt(r[|StorePrefix|..]) == Some(appid)
  {
    var r := StorePrefix + IntToString(appid);
    assert r[|StorePrefix|..] == IntToString(appid);
    ParseIntOfIntToString(appid);
    r
  }

  /** `_parse_game`: a `Game` for `appid` whose fields are read from the page
      and whose url depends on the appid alone. */
  function ParseGame(doc: Document, appid: int): (g: Game)
    ensures g.appid == appid
    ensures g.url == Some(StoreUrl(appid))
    ensures g.name == ExtractName(doc) && g.releaseDate == ExtractReleaseDate(doc)
    ensures g.price == ExtractPrice(doc) && g.metascore == ExtractMetascore(doc)
  {
    NewGame(
      appid,
      name := ExtractName(doc),
      releaseDate := ExtractReleaseDate(doc),
      price := ExtractPrice(doc),
      metascore := ExtractMetascore(doc),
      url := Some(StoreUrl(appid)))
  }

  /** The meta price wins over the cents attribute: putting elements that
      carry no price or currency meta tag, however many `data-price-final`
      attributes they have, in front of a page whose meta price applies
      changes nothing. */
  lemma MetaPriceTakesPrecedence(front: Document, doc: Document, i: int)
    requires IsFirst(doc, IsMetaPrice, i) && HasContent(doc[i])
    requires forall j :: 0 <= j < |front| ==> !IsMetaPrice(front[j]) && !IsMetaCurrency(front[j])
    ensures ExtractPrice(front + doc) == ExtractPrice(doc)
    ensures ExtractPrice(doc).Some?
  {
    IsFirstAfterPrefix(front, doc, IsMetaPrice, i);
    assert (front + doc)[|front| + i] == doc[i];
    match FirstIndex(doc, IsMetaCurrency)
    case None =>
      forall j | 0 <= j < |front + doc|
        ensures !IsMetaCurrency((front + doc)[j])
      {
        if j >= |front| { assert (front + doc)[j] == doc[j - |front|]; }
      }
    case Some(c) =>
      IsFirstAfterPrefix(front, doc, IsMetaCurrency, c);
      assert (front + doc)[|front| + c] == doc[c];
  }

  /** There is no price exactly when the meta price does not apply and the
      first `data-price-final` is missing or not all digits. */
  lemma PriceAbsent(doc: Document)
    ensures ExtractPrice(doc).None? <==>
      && !MetaPriceApplies(doc)
      && forall k :: IsFirst(doc, HasPriceFinal, k) ==> !IsDigits(doc[k].attrs["data-price-final"])
  {
    match FirstIndex(doc, IsMetaPrice)
    case Some(m) =>
      if HasContent(doc[m]) {
        assert MetaPriceApplies(doc);
      } else {
        assert !MetaPriceApplies(doc) by {
          forall i | IsFirst(doc, IsMetaPrice, i) ensures !HasContent(doc[i]) {
            IsFirstUnique(doc, IsMetaPrice, i, m);
          }
        }
        PriceAbsentCents(doc);
      }
    case None =>
      PriceAbsentCents(doc);
  }

  lemma PriceAbsentCents(doc: Document)
    requires !MetaPriceApplies(doc)
    ensures ExtractPrice(doc).None? <==>
      forall k :: IsFirst(doc, HasPriceFinal, k) ==> !IsDigits(doc[k].attrs["data-price-final"])
  {
    match FirstIndex(doc, HasPriceFinal)
    case Some(k) =>
      forall k' | IsFirst(doc, HasPriceFinal, k') ensures k' == k {
        IsFirstUnique(doc, HasPriceFinal, k, k');
      }
    case None =>
  }

  /** A zero price reads "Free To Play" on either path: the meta content
      spelled "0" or "0.00" (after stripping and turning commas into points),
      or, when no meta price applies, a `data-price-final` of only zeros. */
  lemma ZeroPriceIsFree(doc: Document)
    ensures forall i :: IsFirst(doc, IsMetaPrice, i) && HasContent(doc[i]) && IsZeroSpelling(Normalize(doc[i].attrs["content"]))
              ==> ExtractPrice(doc) == Some(FreeToPlay)
    ensures forall k :: !MetaPriceApplies(doc) && IsFirst(doc, HasPriceFinal, k) && IsZeroCents(doc[k].attrs["data-price-final"])
              ==> ExtractPrice(doc) == Some(FreeToPlay)
  {
  }

  // ---------------------------------------------------------------------------
  // Batch

  /** The reply the store gives to one appid's page request is usable. */
  predicate Fetched(reply: PageReply) {
    reply.PageResponse? && IsSuccess(reply.status)
  }

  /** `_fetch_details`: the page of one appid turned into its `Game`, or the
      failure that `raise_for_status` (or the transport) raises for it. */
  function FetchDetail(fetch: int -> PageReply, appid: int): (r: Result<Game, Error>)
    ensures r.Success? <==> Fetched(fetch(appid))
    ensures r.Success? ==> r.value == ParseGame(fetch(appid).page, appid)
    ensures r.Failure? ==> r.error == DetailFetchFailed(appid)
  {
    var reply := fetch(appid);
    if Fetched(reply) then Success(ParseGame(reply.page, appid)) else Failure(DetailFetchFailed(appid))
  }

  /** `asyncio.gather` over one task per element, all or nothing: every
      task's value in the order of `xs`, or the failure of one of the tasks.
      Which failure is reported when several tasks fail depends on timing in
      the source; here it is the first in `xs`. */
  method Gather<T, G, E>(xs: seq<T>, task: T -> Result<G, E>) returns (r: Result<seq<G>, E>)
    ensures r.Success? <==> forall i :: 0 <= i < |xs| ==> task(xs[i]).Success?
    ensures r.Success? ==> |r.value| == |xs| && forall i :: 0 <= i < |xs| ==> r.value[i] == task(xs[i]).value
    ensures r.Failure? ==> exists i :: 0 <= i < |xs| && task(xs[i]) == Failure(r.error)
  {
    var values: seq<G> := [];
    var i := 0;
    while i < |xs|
      invariant 0 <= i <= |xs|
      invariant |values| == i
      invariant forall j :: 0 <= j < i ==> task(xs[j]).Success? && values[j] == task(xs[j]).value
    {
      var outcome := task(xs[i]);
      if outcome.Failure? {
        return Failure(outcome.error);
      }
      values := values + [outcome.value];
      i := i + 1;
    }
    return Success(values);
  }

  /** `fetch_games`: the top ids, then one `Game` per id in rank order; a
      failure of the feed or of any page fails the whole batch, and no
      partial list is ever returned. */
  method FetchGames(s: SteamScraper, feed: FeedReply, fetch: int -> PageReply) returns (r: Result<seq<Game>, Error>)
    ensures FetchTopIds(feed, s.rows).Failure? ==> r == Failure(FetchTopIds(feed, s.rows).error)
    ensures FetchTopIds(feed, s.rows).Success? ==>
      var ids := FetchTopIds(feed, s.rows).value;
      && (r.Success? <==> forall i :: 0 <= i < |ids| ==> Fetched(fetch(ids[i])))
      && (r.Success? ==> |r.value| == |ids| && forall i :: 0 <= i < |ids| ==> r.value[i] == ParseGame(fetch(ids[i]).page, ids[i]))
      && (r.Failure? ==> exists i :: 0 <= i < |ids| && !Fetched(fetch(ids[i])) && r.error == DetailFetchFailed(ids[i]))
  {
    var top := FetchTopIds(feed, s.rows);
    if top.Failure? {
      return Failure(top.error);
    }
    r := Gather(top.value, appid => FetchDetail(fetch, appid));
  }
}

=== FILE: text.dfy ===
/** The slice of Python's string semantics the scraper relies on: `str.strip()`,
    `str.isdigit()`, `str.replace`, `int(s)` and `str(n)`, restricted to ASCII. */
module Text {
  import opened Wrappers

  /** The ASCII characters Python's `str.isspace` accepts: `\t` to `\r`, the
      four separators 0x1C-0x1F, and the space. */
  predicate IsSpace(c: char) {
    c == ' ' || ('\t' <= c <= '\r') || ('\U{1C}' <= c <= '\U{1F}')
  }

  /** The whitespace `int()` skips around a number: `\t` to `\r` and the
      space. Unlike `str.strip()` it keeps the separators 0x1C-0x1F. */
  predicate IsIntSpace(c: char) {
    c == ' ' || ('\t' <= c <= '\r')
  }

  predicate IsDigit(c: char) {
    '0' <= c <= '9'
  }

  predicate AllSpace(s: string) {
    forall i :: 0 <= i < |s| ==> IsSpace(s[i])
  }

  predicate AllDigits(s: string) {
    forall i :: 0 <= i < |s| ==> IsDigit(s[i])
  }

  /** Python's `str.isdigit()` on ASCII: true only for a non-empty run of digits. */
  predicate IsDigits(s: string) {
    |s| > 0 && AllDigits(s)
  }

  /** A digit string as Python's `str` prints a non-negative integer: no
      leading zero unless the number is zero itself. */
  predicate IsCanonicalDigits(s: string) {
    IsDigits(s) && (s[0] != '0' || |s| == 1)
  }

  // ---------------------------------------------------------------------------
  // str.strip()

  function TrimStart(s: string): (r: string)
    ensures |r| <= |s| && r == s[|s| - |r|..]
    ensures AllSpace(s[..|s| - |r|])
    ensures r == [] || !IsSpace(r[0])
  {
    if |s| > 0 && IsSpace(s[0]) then
      var r := TrimStart(s[1..]);
      assert s[..|s| - |r|] == [s[0]] + s[1..][..|s| - 1 - |r|];
      r
    else s
  }

  function TrimEnd(s: string): (r: string)
    ensures |r| <= |s| && r == s[..|r|]
    ensures AllSpace(s[|r|..])
    ensures r == [] || !IsSpace(r[|r| - 1])
  {
    if |s| > 0 && IsSpace(s[|s| - 1]) then
      var p := s[..|s| - 1];
      var r := TrimEnd(p);
      assert s[|r|..] == p[|r|..] + [s[|s| - 1]];
      r
    else s
  }

  /** `r` sits at offset `lo` of `s`, neither starts nor ends with
      whitespace, and only whitespace surrounds it. */
  predicate StripAt(s: string, r: string, lo: int) {
    && 0 <= lo <= |s| - |r|
    && (r == [] || (!IsSpace(r[0]) && !IsSpace(r[|r| - 1])))
    && s[lo..lo + |r|] == r
    && AllSpace(s[..lo])
    && AllSpace(s[lo + |r|..])
  }

  /** `r` is `s` with its surrounding whitespace removed. */
  ghost predicate IsStripOf(s: string, r: string) {
    exists lo :: StripAt(s, r, lo)
  }

  /** Python's `str.strip()` with no argument. */
  function Strip(s: string): (r: string)
    ensures IsStripOf(s, r)
  {
    StripOfTrims(s);
    TrimEnd(TrimStart(s))
  }

  /** Trimming the front, then the back, strips. */
  lemma StripOfTrims(s: string)
    ensures IsStripOf(s, TrimEnd(TrimStart(s)))
  {
    var t := TrimStart(s);
    var r := TrimEnd(t);
    StripAtParts(s, t, r);
    assert StripAt(s, r, |s| - |t|);
  }

  /** Removing leading whitespace to get `t`, then trailing whitespace from
      `t` to get `r`, leaves `r` at the offset where the leading whitespace
      ends. */
  lemma StripAtParts(s: string, t: string, r: string)
    requires |t| <= |s| && t == s[|s| - |t|..] && AllSpace(s[..|s| - |t|]) && (t == [] || !IsSpace(t[0]))
    requires |r| <= |t| && r == t[..|r|] && AllSpace(t[|r|..]) && (r == [] || !IsSpace(r[|r| - 1]))
    ensures StripAt(s, r, |s| - |t|)
  {
    var lo := |s| - |t|;
    assert r != [] ==> r[0] == t[0];
    assert s[lo..lo + |r|] == t[..|r|];
    assert s[lo + |r|..] == t[|r|..];
  }

  lemma SpaceBefore(s: string, a: int, k: int)
    requires 0 <= k < a <= |s| && AllSpace(s[..a])
    ensures IsSpace(s[k])
  {
    assert s[..a][k] == s[k];
  }

  lemma SpaceAfter(s: string, a: int, k: int)
    requires 0 <= a <= k < |s| && AllSpace(s[a..])
    ensures IsSpace(s[k])
  {
    assert s[a..][k - a] == s[k];
  }

  lemma StripAtEmpty(s: string, r1: string, lo1: int, r2: string, lo2: int)
    requires StripAt(s, r1, lo1) && StripAt(s, r2, lo2) && r1 == []
    ensures r2 == []
  {
    if r2 != [] {
      assert s[lo2] == r2[0];
      if lo2 < lo1 { SpaceBefore(s, lo1, lo2); } else { SpaceAfter(s, lo1, lo2); }
    }
  }

  lemma StripAtNonEmpty(s: string, r1: string, lo1: int, r2: string, lo2: int)
    requires StripAt(s, r1, lo1) && StripAt(s, r2, lo2) && r1 != [] && r2 != []
    ensures r1 == r2
  {
    // both start at the first non-space character ...
    assert s[lo1] == r1[0] && s[lo2] == r2[0];
    if lo1 < lo2 { SpaceBefore(s, lo2, lo1); }
    if lo2 < lo1 { SpaceBefore(s, lo1, lo2); }
    // ... and end after the last one
    var e1, e2 := lo1 + |r1|, lo2 + |r2|;
    assert s[e1 - 1] == r1[|r1| - 1] && s[e2 - 1] == r2[|r2| - 1];
    if e1 < e2 { SpaceAfter(s, e1, e2 - 1); }
    if e2 < e1 { SpaceAfter(s, e2, e1 - 1); }
  }

  /** There is only one way to strip a string, so `Strip` is THE strip. */
  lemma StripUnique(s: string, r1: string, r2: string)
    requires IsStripOf(s, r1) && IsStripOf(s, r2)
    ensures r1 == r2
  {
    var lo1 :| StripAt(s, r1, lo1);
    var lo2 :| StripAt(s, r2, lo2);
    if r1 == [] {
      StripAtEmpty(s, r1, lo1, r2, lo2);
    } else if r2 == [] {
      StripAtEmpty(s, r2, lo2, r1, lo1);
    } else {
      StripAtNonEmpty(s, r1, lo1, r2, lo2);
    }
  }

  /** Stripping twice is stripping once. */
  lemma StripIdempotent(s: string)
    ensures Strip(Strip(s)) == Strip(s)
  {
    var r := Strip(s);
    assert StripAt(r, r, 0) by {
      assert r[0..0 + |r|] == r;
      assert r[..0] == [] && r[|r|..] == [];
    }
    StripUnique(r, Strip(r), r);
  }

  // ---------------------------------------------------------------------------
  // str.replace(a, b) for single characters

  /** `s.replace(from, to)` for one-character arguments. */
  function ReplaceChar(s: string, from: char, to: char): (r: string)
    ensures |r| == |s|
    ensures forall i :: 0 <= i < |s| ==> r[i] == (if s[i] == from then to else s[i])
  {
    if |s| == 0 then [] else [if s[0] == from then to else s[0]] + ReplaceChar(s[1..], from, to)
  }

  /** Replacing a character that does not occur changes nothing. */
  lemma ReplaceCharAbsent(s: string, from: char, to: char)
    requires forall i :: 0 <= i < |s| ==> s[i] != from
    ensures ReplaceChar(s, from, to) == s
  {
  }

  // ---------------------------------------------------------------------------
  // Decimal digits: int(s) and str(n)

  function DigitValue(c: char): (d: nat)
    requires IsDigit(c)
    ensures d < 10
  {
    c as int - '0' as int
  }

  function Digit(d: nat): (c: char)
    requires d < 10
    ensures IsDigit(c) && DigitValue(c) == d
  {
    ('0' as int + d) as char
  }

  /** The number a run of decimal digits denotes (leading zeros allowed, as in `int("007")`). */
  function DigitsValue(s: string): nat
    requires AllDigits(s)
  {
    if |s| == 0 then 0 else DigitsValue(s[..|s| - 1]) * 10 + DigitValue(s[|s| - 1])
  }

  /** Python's `str(n)` for a non-negative integer; reading it back gives `n`. */
  function NatToString(n: nat): (r: string)
    ensures IsCanonicalDigits(r)
    ensures DigitsValue(r) == n
  {
    if n < 10 then [Digit(n)]
    else
      var p := NatToString(n / 10);
      var r := p + [Digit(n % 10)];
      assert r[..|r| - 1] == p;
      r
  }

  /** A digit string without a leading zero denotes a positive number when it is not "0". */
  lemma {:induction false} CanonicalDigitsPositive(s: string)
    requires IsDigits(s) && s[0] != '0'
    ensures DigitsValue(s) > 0
  {
    if |s| > 1 {
      var p := s[..|s| - 1];
      assert p[0] == s[0];
      CanonicalDigitsPositive(p);
    }
  }

  /** `str(int(s)) == s` for every canonical digit string: `NatToString` and
      `DigitsValue` are inverse bijections between naturals and canonical strings. */
  lemma {:induction false} NatToStringOfDigits(s: string)
    requires IsCanonicalDigits(s)
    ensures NatToString(DigitsValue(s)) == s
  {
    if |s| > 1 {
      var p, c := s[..|s| - 1], s[|s| - 1];
      assert p[0] == s[0];
      CanonicalDigitsPositive(p);
      NatToStringOfDigits(p);
      var v, d := DigitsValue(p), DigitValue(c);
      assert DigitsValue(s) == v * 10 + d;
      LastDigitSplit(v, d);
      assert Digit(d) == c;
      assert s == p + [c];
    }
  }

  /** `n // 10` and `n % 10` undo appending the digit `d` to `v`. */
  lemma LastDigitSplit(v: nat, d: nat)
    requires d < 10
    ensures (v * 10 + d) / 10 == v && (v * 10 + d) % 10 == d
  {
  }

  /** Python's `str(i)` for any integer. */
  function IntToString(i: int): (r: string)
    ensures |r| > 0 && (r[0] == '-' <==> i < 0)
    ensures i < 0 ==> IsCanonicalDigits(r[1..]) && DigitsValue(r[1..]) == -i
    ensures i >= 0 ==> IsCanonicalDigits(r) && DigitsValue(r) == i
  {
    if i < 0 then
      var d := NatToString(-i);
      assert ("-" + d)[1..] == d;
      "-" + d
    else NatToString(i)
  }

  // ---------------------------------------------------------------------------
  // int(s)

  predicate AllIntSpace(s: string) {
    forall i :: 0 <= i < |s| ==> IsIntSpace(s[i])
  }

  function IntTrimStart(s: string): (r: string)
    ensures |r| <= |s| && r == s[|s| - |r|..]
    ensures AllIntSpace(s[..|s| - |r|])
    ensures r == [] || !IsIntSpace(r[0])
  {
    if |s| > 0 && IsIntSpace(s[0]) then
      var r := IntTrimStart(s[1..]);
      assert s[..|s| - |r|] == [s[0]] + s[1..][..|s| - 1 - |r|];
      r
    else s
  }

  function IntTrimEnd(s: string): (r: string)
    ensures |r| <= |s| && r == s[..|r|]
    ensures AllIntSpace(s[|r|..])
    ensures r == [] || !IsIntSpace(r[|r| - 1])
  {
    if |s| > 0 && IsIntSpace(s[|s| - 1]) then
      var p := s[..|s| - 1];
      var r := IntTrimEnd(p);
      assert s[|r|..] == p[|r|..] + [s[|s| - 1]];
      r
    else s
  }

  /** The text `int()` reads: `s` without the `IsIntSpace` characters around it. */
  function IntTrim(s: string): (r: string)
    ensures r == [] || (!IsIntSpace(r[0]) && !IsIntSpace(r[|r| - 1]))
  {
    var t := IntTrimStart(s);
    var r := IntTrimEnd(t);
    assert r != [] ==> r[0] == t[0];
    r
  }

  /** A string that neither starts nor ends with `int()`'s whitespace is read as it is. */
  lemma IntTrimOfTrimmed(s: string)
    requires s == [] || (!IsIntSpace(s[0]) && !IsIntSpace(s[|s| - 1]))
    ensures IntTrim(s) == s
  {
  }

  /** Python's `int(s)` for base-10 text: whitespace that `int()` skips, one
      optional sign, then one or more digits; `None` where Python raises
      `ValueError`. */
  function ParseInt(s: string): (r: Option<int>)
    ensures IsDigits(IntTrim(s)) ==> r == Some(DigitsValue(IntTrim(s)))
    ensures var t := IntTrim(s); |t| > 0 && (t[0] == '-' || t[0] == '+') && IsDigits(t[1..]) ==>
      var n: int := DigitsValue(t[1..]);
      r == Some(if t[0] == '-' then -n else n)
    ensures r.Some? ==> var t := IntTrim(s);
      && (IsDigits(t) || (|t| > 0 && (t[0] == '-' || t[0] == '+') && IsDigits(t[1..])))
      && (r.value < 0 ==> t[0] == '-')
  {
    var t := IntTrim(s);
    if |t| > 0 && (t[0] == '-' || t[0] == '+') then
      if IsDigits(t[1..]) then
        var n: int := DigitsValue(t[1..]);
        Some(if t[0] == '-' then -n else n)
      else None
    else if IsDigits(t) then Some(DigitsValue(t))
    else None
  }

  /** A string that neither starts nor ends with whitespace is its own strip. */
  lemma StripOfTrimmed(s: string)
    requires s == [] || (!IsSpace(s[0]) && !IsSpace(s[|s| - 1]))
    ensures Strip(s) == s
  {
    assert StripAt(s, s, 0) by {
      assert s[0..0 + |s|] == s;
      assert s[..0] == [] && s[|s|..] == [];
    }
    StripUnique(s, Strip(s), s);
  }

  /** `int(str(i)) == i`: every integer survives printing and parsing. */
  lemma ParseIntOfIntToString(i: int)
    ensures ParseInt(IntToString(i)) == Some(i)
  {
    var s := IntToString(i);
    if i < 0 {
      var d := NatToString(-i);
      assert s == "-" + d && s[1..] == d;
      assert s[|s| - 1] == d[|d| - 1];
      IntTrimOfTrimmed(s);
    } else {
      IntTrimOfTrimmed(s);
    }
  }

  /** `str.strip()` removes a leading separator such as 0x1C, but `int()`
      does not skip it: a digit run behind one is stripped to the digits,
      yet does not parse. */
  lemma ParseIntKeepsSeparators(d: string)
    requires IsDigits(d)
    ensures Strip(['\U{1C}'] + d) == d
    ensures ParseInt(['\U{1C}'] + d) == None
  {
    StripSeparator('\U{1C}', d);
    ParseIntSeparator('\U{1C}', d);
  }

  lemma StripSeparator(c: char, d: string)
    requires IsSpace(c) && IsDigits(d)
    ensures Strip([c] + d) == d
  {
    var s := [c] + d;
    assert StripAt(s, d, 1) by {
      assert s[1..1 + |d|] == d;
      assert s[..1] == [c] && s[1 + |d|..] == [];
      assert !IsSpace(d[0]) && !IsSpace(d[|d| - 1]);
    }
    StripUnique(s, Strip(s), d);
  }

  lemma ParseIntSeparator(c: char, d: string)
    requires !IsIntSpace(c) && !IsDigit(c) && c != '-' && c != '+' && IsDigits(d)
    ensures ParseInt([c] + d) == None
  {
    var s := [c] + d;
    assert s[0] == c && s[|s| - 1] == d[|d| - 1];
    IntTrimOfTrimmed(s);
  }

  /** A text that `int()` reads as a canonical digit run parses to the run's
      value, and `str` of the result is that run again. */
  lemma ParseIntCanonical(s: string)
    requires IsCanonicalDigits(IntTrim(s))
    ensures ParseInt(s) == Some(DigitsValue(IntTrim(s)))
    ensures IntToString(ParseInt(s).value) == IntTrim(s)
  {
    NatToStringOfDigits(IntTrim(s));
  }

  // ---------------------------------------------------------------------------
  // Character search

  /** Index of the last occurrence of `c` in `s`. */
  function LastIndexOf(s: string, c: char): (r: Option<nat>)
    ensures r.Some? ==> r.value < |s| && s[r.value] == c && forall j :: r.value < j < |s| ==> s[j] != c
    ensures r.None? ==> forall j :: 0 <= j < |s| ==> s[j] != c
  {
    if |s| == 0 then None
    else if s[|s| - 1] == c then Some(|s| - 1)
    else LastIndexOf(s[..|s| - 1], c)
  }

  /** Index of the first occurrence of `c` in `s`. */
  function IndexOf(s: string, c: char): (r: Option<nat>)
    ensures r.Some? ==> r.value < |s| && s[r.value] == c && forall j :: 0 <= j < r.value ==> s[j] != c
    ensures r.None? ==> forall j :: 0 <= j < |s| ==> s[j] != c
  {
    if |s| == 0 then None
    else if s[0] == c then Some(0)
    else match IndexOf(s[1..], c)
      case None => None
      case Some(k) => Some(k + 1)
  }

  /** The first `c` in `a + b` is the head of `b` when `a` has none. */
  lemma IndexOfAfter(a: string, b: string, c: char)
    requires forall j :: 0 <= j < |a| ==> a[j] != c
    requires |b| > 0 && b[0] == c
    ensures IndexOf(a + b, c) == Some(|a|)
  {
    var s := a + b;
    assert s[|a|] == c;
    assert forall j :: 0 <= j < |a| ==> s[j] == a[j];
  }

  /** The last `c` in `a + [c] + b` is the one after `a` when `b` holds none. */
  lemma LastIndexOfBefore(a: string, b: string, c: char)
    requires forall j :: 0 <= j < |b| ==> b[j] != c
    ensures LastIndexOf(a + [c] + b, c) == Some(|a|)
  {
    var t := a + [c];
    var s := t + b;
    assert s[|a|] == c;
    forall j | |t| <= j < |s|
      ensures s[j] != c
    {
      assert s[j] == b[j - |t|];
    }
    LastIndexOfAt(s, |a|, c);
  }

  /** `c` at `k` with none after it is the last `c`. */
  lemma LastIndexOfAt(s: string, k: nat, c: char)
    requires k < |s| && s[k] == c
    requires forall j :: k < j < |s| ==> s[j] != c
    ensures LastIndexOf(s, c) == Some(k)
  {
  }

  /** `int(s)` on a plain digit string is the number the digits denote. */
  lemma ParseIntOfDigits(t: string)
    requires IsDigits(t)
    ensures ParseInt(t) == Some(DigitsValue(t))
  {
    assert !IsIntSpace(t[0]) && !IsIntSpace(t[|t| - 1]);
    IntTrimOfTrimmed(t);
  }
}

=== FILE: wrappers.dfy ===
/** Failure-compatible value types used throughout the model: Python's
    `X | None` becomes `Option<X>`, and a raised exception becomes the
    `Failure` arm of a `Result`. */
module Wrappers {

  /** A value that may be absent (Python's `None`). */
  datatype Option<+T> = None | Some(value: T) {

    predicate IsFailure() {
      None?
    }

    function PropagateFailure<U>(): Option<U>
      requires None?
    {
      None
    }

    function Extract(): T
      requires Some?
    {
      value
    }
  }

  /** Either a computed value or the error that aborted the computation. */
  datatype Result<+R, +E> = Success(value: R) | Failure(error: E) {

    predicate IsFailure() {
      Failure?
    }

    function PropagateFailure<U>(): Result<U, E>
      requires Failure?
    {
      Failure(error)
    }

    function Extract(): R
      requires Success?
    {
      value
    }
  }
}
